=== FILE: README.md ===
# Clinic appointment booking: validator and appointment store

This Dafny project models the decision logic of a clinic's appointment-booking site. It has two parts.

- **The browser form controller** (`backend/script-backend.js`). `handleBooking` collects seven
  fields, trimming four of them. `validateForm` then runs four checks in a fixed order: no empty
  field, an email regular expression, a phone regular expression, and a date that is not in the
  past. A booking request is sent only when all four pass.
- **The REST server** (`server.js`). `POST /api/appointments` checks the fields, the email and the
  phone, then builds an appointment document. The document mapper trims name and reason, lower-cases
  the email, checks the doctor enum and casts the date. It forces the status to `pending` and saves
  the document. Further routes read one appointment, list all appointments newest first, list
  appointments by status, change a status and delete an appointment.

The collection is an immutable `map<Id, Appointment>`. Every handler is a pure function (or, for
the two list queries, a method) from the collection and the request to a response and the next
collection. Responses carry an HTTP-like code, the `success` flag, a message and a payload.

Modules:

- `Wrappers` holds `Option`.
- `JsText` holds the ECMAScript `\s` class, `trim` and `toLowerCase`.
- `Patterns` holds the email and phone regular expressions.
- `ClientForm` holds `validateForm` and `handleBooking`.
- `Schema` holds the enums, the record and the document mapper.
- `Listing` holds the two collection queries.
- `Api` holds the route handlers and the `Serve` dispatcher.
- `ApiLemmas` relates handlers to one another.
- `SampleText` holds facts about the sample patient's address and number.
- `EndToEnd` relates the browser to the server.

The foreign pieces are parameters of the model:

- `validator.isEmail`, `validator.isMobilePhone` and `new Date(...)` on the request's date string
  are the function-valued fields of `Schema.Validators`.
- Today's day number and the browser's date parsing are `ClientForm.Clock`.
- Database reachability, the fresh identifier and the creation instant are `Api.Context`.

## Model

| member | source | states |
|---|---|---|
| JsText.Trim | backend/script-backend.js:35-41 | the trimmed value is a contiguous piece of the input with only whitespace cut from either end, and it neither starts nor ends with whitespace |
| JsText.TrimStart | backend/script-backend.js:35 | the result is a suffix of the input, everything cut off is whitespace, and the result does not start with whitespace |
| JsText.TrimEnd | backend/script-backend.js:35 | the result is a prefix of the input, everything cut off is whitespace, and the result does not end with whitespace |
| JsText.TrimUnique | backend/script-backend.js:35-41 | any string that cuts whitespace off both ends and leaves none at either end equals `Trim` of the input, so the trim is unique |
| JsText.TrimIdempotent | server.js:43-47 | trimming an already trimmed value (the browser's, then the schema setter's) changes nothing |
| JsText.TrimmedIsFixed | server.js:79-83 | a value with no whitespace at either end is its own trim |
| JsText.TrimEmptyIff | backend/script-backend.js:35-41 | a value trims to empty exactly when it is whitespace only |
| JsText.ToLower | server.js:48-51 | the `lowercase` setter keeps the length, leaves no upper-case ASCII letter, keeps every other character and maps each upper-case letter to its lower-case partner |
| JsText.ToLowerIdempotent | server.js:51 | lower-casing a stored, already lower-case address changes nothing |
| Patterns.EmailRegexIff | backend/script-backend.js:133-134 | the email regex, read as a concatenation of runs, matches exactly when the string has no whitespace, exactly one '@' with something before it, and a '.' after the '@' that is neither the first nor the last character of the domain part |
| Patterns.JoinedAddress | backend/script-backend.js:133-134 | three runs of plain characters joined by an '@' and a '.' make an address the email regex accepts |
| Patterns.PhoneCountsCharactersNotDigits | backend/script-backend.js:142-144 | the phone rule counts characters of the class, not digits: ten hyphens pass, nine digits fail, and a ten-digit number with a space passes |
| ClientForm.Check | backend/script-backend.js:120-166 | the checks run in the order empty, email, phone, date, and the first failure decides: each verdict holds exactly when all earlier checks pass and its own check fails |
| ClientForm.ValidateForm | backend/script-backend.js:120-166 | the result is true exactly when no field is empty, the email matches, the phone matches and the date is not before today |
| ClientForm.Banner | backend/script-backend.js:125-158 | the banner texts of the four rejections ("All fields are required.", "Please enter a valid email address.", "Please enter a valid phone number.", "Please select a future date."). There is a banner exactly when the verdict is a rejection |
| ClientForm.BannerNamesTheCheck | backend/script-backend.js:120-166 | `validateForm` shows a banner exactly when it returns false, and each failed check has a banner of its own |
| ClientForm.Collect | backend/script-backend.js:34-42 | name, email, phone and reason are the trims of the typed values, while doctor, date and time are passed through untouched |
| ClientForm.HandleBooking | backend/script-backend.js:44-61 | the submission is blocked exactly when `validateForm` fails on the collected form, with that failure's verdict; otherwise the collected form itself is sent |
| ClientForm.MissingIffBlank | backend/script-backend.js:124-130 | because four fields are trimmed first, the empty check fires exactly when the name, email, phone or reason was typed as whitespace alone, or doctor, date or time is empty |
| ClientForm.NothingToTrim | backend/script-backend.js:34-42 | a form whose name, email, phone and reason have no whitespace at either end is collected unchanged |
| ClientForm.CleanFormOutcome | backend/script-backend.js:120-166 | a form with nothing to trim, no empty field and an address and number of the right shape is decided by its date alone: sent as typed when not past, blocked as past otherwise |
| ClientForm.WhitespaceOnlyIsMissing | backend/script-backend.js:124-130 | a name, email, phone or reason of whitespace alone is reported as a missing field and nothing is sent |
| ClientForm.UntrimmedFieldsKeepSpaces | backend/script-backend.js:34-42 | doctor, date and time are read without `.trim()`: typed as a single space, with the other four fields not blank, the form is not blocked as missing a field |
| ClientForm.TodayIsNotPast | backend/script-backend.js:152-163 | a date falling on the current local day is accepted, and one falling on the day before is rejected as past. The day is that of `new Date(date)`, read as midnight UTC, so west of UTC the current day's date string falls on the day before and is blocked |
| Schema.ParseDoctor | server.js:59-70 | the enum accepts exactly the six practitioner identifiers, and an accepted identifier is the identifier of the doctor returned |
| Schema.ParseStatus | server.js:84-88 | exactly `pending`, `confirmed` and `cancelled` are accepted, and an accepted name is the name of the status returned |
| Schema.EnumRoundTrips | server.js:62-69 | every doctor identifier and every status name parses back to its value |
| Schema.Cast | server.js:42-93 | a built document conforms to the schema: name and reason trimmed and non-empty, email lower-case and accepted by `isEmail`, phone accepted by `isMobilePhone`, known doctor, cast date, status `pending`, creation time `now`. The build fails exactly when a required field empties, a validator rejects, the doctor is unknown or the date does not cast |
| Listing.InsertNewest | server.js:279 | inserting into a newest-first list keeps it newest first and adds exactly the new document, counting repeats. Identifiers stay distinct when the new one is new |
| Listing.ListAll | server.js:279 | every stored appointment is listed exactly once, as stored, in order of creation time, most recent first |
| Listing.ListByStatus | server.js:386 | exactly the stored appointments whose status is spelled as the parameter are listed, once each. The parameter is not checked against the enum |
| Api.Text | server.js:222-378 | the thirteen response messages as the client receives them. No text is empty, and a text starts with `E` (of "Error") exactly when it is the message of a 500 answer |
| Api.Book | server.js:214-274 | a missing or empty field gives 400 "All fields are required". After that, `isEmail` and then `isMobilePhone` decide the next 400 message. A 400 happens exactly when one of these three checks fails. After the checks, a failed save gives 500. A 201 adds exactly one document, the one built from the request, leaves all others alone and triggers both notices. On every other outcome nothing changes and no notice is sent |
| Api.Save | server.js:253-272 | a document is added under the fresh identifier exactly when it was built, the database answers and the identifier is free; otherwise a 500 leaves the collection unchanged |
| Api.Get | server.js:295-315 | the response succeeds exactly when the identifier is well formed and stored and the database answers, and then returns that document. An unknown identifier gives 404, and a malformed identifier or an unreachable database gives 500 |
| Api.UpdateStatus | server.js:318-355 | a status outside the enum gives 400 and changes nothing, even for an unknown identifier. An unknown identifier gives 404 and changes nothing. A success changes only the status of that one document and returns it |
| Api.Delete | server.js:358-381 | a success removes exactly that document and nothing else. An unknown identifier gives 404 and changes nothing |
| Api.GetAll | server.js:277-292 | the listing holds every appointment once, newest first, and its count equals its length |
| Api.GetByStatus | server.js:384-399 | the listing holds exactly the appointments with that status, and its count equals its length |
| Api.BookKeepsSchema | server.js:243-254 | a failed booking changes nothing, a booking adds no identifier but the fresh one, and every stored document stays within the schema |
| Api.UpdateKeepsSchema | server.js:329-333 | a failed status change changes nothing, no identifier is added, and every stored document stays within the schema |
| Api.DeleteKeepsSchema | server.js:360 | a failed deletion changes nothing, no identifier is added, and every remaining document stays within the schema |
| Api.Serve | server.js:213-399 | reads never change the collection, and neither does a failed request. Every request keeps the collection within the schema and adds at most the fresh identifier |
| ApiLemmas.BookThenGet | server.js:243-254 | a booking that passes the route's checks, builds a document and has a free identifier gets 201. Reading the new identifier then returns the saved record: status pending, creation time `now`, name and reason trimmed, email lower-cased, and the other fields as sent |
| ApiLemmas.BookAddsOne | server.js:254 | a booking that passes the route's checks, builds a document, reaches the database and has a free identifier grows the collection by exactly one |
| ApiLemmas.WhitespaceNameFailsOnSave | server.js:43-47 | a whitespace-only name passes the route's truthiness check but empties under `trim`, so the save fails with 500 and nothing is stored |
| ApiLemmas.UnknownDoctorFailsOnSave | server.js:59-70 | any doctor identifier outside the enum passes the route's checks, then the save fails: 500 "Error booking appointment", nothing stored and no notice sent |
| ApiLemmas.BookAnswersBookingMessage | server.js:218-273 | every answer of the booking route carries one of its five messages |
| ApiLemmas.BookingTextsDistinct | server.js:222-270 | the five booking messages have five different texts, so the message the booking page shows identifies the outcome |
| ApiLemmas.UpdateThenGet | server.js:329-346 | after a successful status change, a read shows the new status and every other field as before |
| ApiLemmas.InvalidStatusChangesNothing | server.js:322-327 | an invalid status gives 400 and every later read answers as before |
| ApiLemmas.DeleteThenGet | server.js:360-367 | after a deletion, reading the identifier gives 404, deleting it again gives 404 with no change, and the collection shrank by one |
| EndToEnd.BodyOf | backend/script-backend.js:55-61 | the server's presence check on the posted body passes exactly when the browser's empty check does, and the server then reads back every field the browser sent |
| EndToEnd.ServerBooksCollectedForm | server.js:214-264 | a form typed with no blank field, once collected and posted, never gets "All fields are required", and it is booked when the server's validators accept it |
| EndToEnd.SentFormIsBooked | backend/script-backend.js:45-61 | a form the browser sends passes the server's presence check, and it is booked when the server's validators accept it |
| EndToEnd.PastDateBookedByServer | server.js:218-254 | the server does not compare the date with today: a form the browser blocks only for its past date is booked when posted directly |
| EndToEnd.CleanFormBooked | server.js:214-264 | a form with no empty field, nothing to trim and values the server's validators accept is booked as sent: name, reason, phone, time and doctor unchanged, email lower-cased, status pending, creation time `now`, and both notices with the patient's going to the lower-cased address |
| EndToEnd.SampleIsSent | backend/script-backend.js:44-61 | the sample patient's form dated tomorrow passes every browser check and is sent exactly as typed |
| EndToEnd.SampleIsBlocked | backend/script-backend.js:152-163 | the same form dated yesterday is blocked, and the verdict is the past date |
| EndToEnd.SampleIsBooked | server.js:242-264 | the server books the sample form: a 201, status pending, doctor `rakesh-gupta`, a confirmation to `jane@example.com` and a notice to the clinic about the new document |

## Left out

- Mongoose connection, ObjectId generation and query semantics: identifiers are abstract naturals. A fresh one is a parameter, and saving under a taken identifier fails like any other failed save.
- `validator.isEmail`, `validator.isMobilePhone` and JavaScript `Date` parsing are foreign code. They are uninterpreted function parameters.
- Nodemailer transport, the HTML templates and the `doctorMap` display names (server.js:100-200). The model only records that a patient confirmation and an admin notice follow a successful save, since sending failures are swallowed. The display-name map covers three of the six doctors; that only affects mail text.
- Express routing, middleware, static files, `GET /` and `GET /api/health`: plumbing.
- DOM writes, `fetch`, button disabling, the banners' timing and `form.reset()`: user interface. Apart from the booking message it shows, the client's handling of the server's JSON reply is not modelled.
- `backend/script.js`: a console-only form handler with no validation.
- Time zones, `setHours` and the UTC reading of `YYYY-MM-DD` strings: dates are abstract day numbers and instants.
- JsText.ToLower: maps only the ASCII letters A–Z, while JavaScript `toLowerCase` applies full Unicode case mapping.
- Api.Book: request fields are either absent or strings. Other JSON values (numbers, booleans, null) that JavaScript truthiness and Mongoose casting would treat differently are not modelled.
- Api.Get: the `error` text attached to 500 responses is not modelled; the same holds for every handler.

Behaviour of the code worth knowing:

- A malformed identifier in a GET or DELETE path, or in a PUT path whose status is valid, makes the ObjectId cast fail, and the handler answers 500. A PUT with an invalid status gets 400 "Invalid status" before the identifier is looked up.
- Delete of an unknown identifier gets 404 "Appointment not found" and changes nothing.
- An unknown doctor, an uncastable date or a whitespace-only name or reason passes the route's checks and is caught by Mongoose validation at save time: the answer is 500 "Error booking appointment".
- The server never checks the date against today.
- The browser's phone rule counts characters of the class `[\d\s\-\+\(\)]`, so punctuation counts towards the ten.
- An Invalid Date is not rejected by the browser, because comparing it with `<` is false.

=== FILE: api.dfy ===
/** The REST handlers under `/api/appointments`, each a pure step from the collection to a
    response and the next collection. */
module Api {
  import opened Wrappers
  import opened JsText
  import opened Schema
  import opened Listing

  /** What a response carries besides its flag and message. */
  datatype Payload = NoPayload | One(doc: Document) | Many(docs: seq<Document>, count: nat)

  /** The messages the handlers answer with. */
  datatype Message =
    | AllFieldsRequired | InvalidEmailAddress | InvalidPhoneNumber | Booked | BookingError
    | ListingError | FetchError | NotFound | InvalidStatus | Updated | UpdateError
    | Deleted | DeleteError

  /** The messages of the 500 answers. */
  predicate ServerFault(m: Message) {
    m.BookingError? || m.ListingError? || m.FetchError? || m.UpdateError? || m.DeleteError?
  }

  /** The text of each message, as the client receives it. The texts of the 500 answers all
      start "Error", and no other text starts with an `E`, so the first letter tells a server
      fault from every other answer. */
  function Text(m: Message): (t: string)
    ensures |t| > 0 && (t[0] == 'E' <==> ServerFault(m))
  {
    match m
    case AllFieldsRequired => "All fields are required"
    case InvalidEmailAddress => "Invalid email address"
    case InvalidPhoneNumber => "Invalid phone number"
    case Booked => "Appointment booked successfully!"
    case BookingError => "Error booking appointment"
    case ListingError => "Error fetching appointments"
    case FetchError => "Error fetching appointment"
    case NotFound => "Appointment not found"
    case InvalidStatus => "Invalid status"
    case Updated => "Appointment updated successfully"
    case UpdateError => "Error updating appointment"
    case Deleted => "Appointment deleted successfully"
    case DeleteError => "Error deleting appointment"
  }

  /** An HTTP status code, the `success` flag, the `message` (absent on plain reads) and the
      payload. The `error` text attached to 500 responses is left out. */
  datatype Response = Response(code: nat, success: bool, message: Option<Message>, payload: Payload)

  function Fail(code: nat, message: Message): Response {
    Response(code, false, Some(message), NoPayload)
  }

  /** The `:id` path parameter: an identifier in ObjectId form, or text that is not one (the
      lookup then throws a cast error). */
  datatype PathId = ObjectId(id: Id) | Malformed(text: string)

  /** The booking request body: a field the client did not send is None. */
  datatype BookingBody = BookingBody(
    name: Option<string>,
    email: Option<string>,
    phone: Option<string>,
    doctor: Option<string>,
    date: Option<string>,
    time: Option<string>,
    reason: Option<string>)

  /** JavaScript truthiness of a string field. */
  predicate Truthy(o: Option<string>) {
    o.Some? && o.value != []
  }

  predicate AllPresent(b: BookingBody) {
    && Truthy(b.name) && Truthy(b.email) && Truthy(b.phone) && Truthy(b.doctor)
    && Truthy(b.date) && Truthy(b.time) && Truthy(b.reason)
  }

  function FieldsOf(b: BookingBody): Fields
    requires AllPresent(b)
  {
    Fields(b.name.value, b.email.value, b.phone.value, b.doctor.value, b.date.value,
           b.time.value, b.reason.value)
  }

  /** The two best-effort notices sent after a booking is saved. Sending failures are logged
      and swallowed, so they never change the response. */
  datatype Mail = PatientConfirmation(to: string) | AdminNotice(about: Document)

  /** What one request does: the response and the collection afterwards. */
  datatype Step = Step(response: Response, store: Store)

  /** The outcome of a booking, with the notices it triggers. */
  datatype Booking = Booking(response: Response, store: Store, mails: seq<Mail>)

  /** The checks the booking route makes itself, before any document is built, in order. */
  predicate RouteAccepts(b: BookingBody, v: Validators) {
    AllPresent(b) && v.isEmail(b.email.value) && v.isMobilePhone(b.phone.value)
  }

  /** `POST /api/appointments`. `reachable` says whether the database answers, `freshId` is
      the identifier the new document is given and `now` the instant it is created. The date
      is not compared with the current day. */
  function Book(store: Store, b: BookingBody, v: Validators, reachable: bool, freshId: Id, now: int)
    : (r: Booking)
    ensures !AllPresent(b) ==> r.response == Fail(400, AllFieldsRequired)
    ensures AllPresent(b) && !v.isEmail(b.email.value) ==>
              r.response == Fail(400, InvalidEmailAddress)
    ensures AllPresent(b) && v.isEmail(b.email.value) && !v.isMobilePhone(b.phone.value) ==>
              r.response == Fail(400, InvalidPhoneNumber)
    ensures r.response.code == 400 <==> !RouteAccepts(b, v)
    ensures r.response.code == 201 <==>
              && RouteAccepts(b, v) && Cast(FieldsOf(b), v, now).Some?
              && reachable && freshId !in store
    ensures r.response.code != 201 ==> r.store == store
    ensures r.response.code != 201 ==> r.mails == [] && !r.response.success
    ensures RouteAccepts(b, v) && r.response.code != 201 ==>
              r.response == Fail(500, BookingError)
    ensures r.response.code == 201 ==>
              && r.store.Keys == store.Keys + {freshId}
              && (forall id | id in store :: r.store[id] == store[id])
              && Some(r.store[freshId]) == Cast(FieldsOf(b), v, now)
              && r.response == Response(201, true, Some(Booked),
                                        One(Document(freshId, r.store[freshId])))
              && r.mails == [PatientConfirmation(r.store[freshId].email),
                             AdminNotice(Document(freshId, r.store[freshId]))]
  {
    if !AllPresent(b) then
      Booking(Fail(400, AllFieldsRequired), store, [])
    else if !v.isEmail(b.email.value) then
      Booking(Fail(400, InvalidEmailAddress), store, [])
    else if !v.isMobilePhone(b.phone.value) then
      Booking(Fail(400, InvalidPhoneNumber), store, [])
    else
      Save(store, Cast(FieldsOf(b), v, now), reachable, freshId)
  }

  /** `save` of a built document, then the notices: a validation error, an unreachable
      database or an identifier already taken make `save` throw, which the route reports as
      a 500 and after which nothing is stored or sent. */
  function Save(store: Store, built: Option<Appointment>, reachable: bool, freshId: Id): (r: Booking)
    ensures r.response.code == 201 <==> built.Some? && reachable && freshId !in store
    ensures r.response.code != 201 ==>
              r == Booking(Fail(500, BookingError), store, [])
    ensures r.response.code == 201 ==>
              && r.store.Keys == store.Keys + {freshId}
              && (forall id | id in store :: r.store[id] == store[id])
              && r.store[freshId] == built.value
              && r.response == Response(201, true, Some(Booked),
                                        One(Document(freshId, built.value)))
              && r.mails == [PatientConfirmation(built.value.email),
                             AdminNotice(Document(freshId, built.value))]
  {
    match built
    case None => Booking(Fail(500, BookingError), store, [])
    case Some(a) =>
      if !reachable || freshId in store then
        Booking(Fail(500, BookingError), store, [])
      else
        var doc := Document(freshId, a);
        Booking(Response(201, true, Some(Booked), One(doc)),
                store[freshId := a],
                [PatientConfirmation(a.email), AdminNotice(doc)])
  }

  /** `GET /api/appointments/:id`. */
  function Get(store: Store, pid: PathId, reachable: bool): (r: Response)
    ensures r.success <==> pid.ObjectId? && reachable && pid.id in store
    ensures r.success ==>
              r == Response(200, true, None, One(Document(pid.id, store[pid.id])))
    ensures pid.ObjectId? && reachable && pid.id !in store ==>
              r == Fail(404, NotFound)
    ensures pid.Malformed? || !reachable ==> r == Fail(500, FetchError)
  {
    match pid
    case Malformed(_) => Fail(500, FetchError)
    case ObjectId(id) =>
      if !reachable then Fail(500, FetchError)
      else if id !in store then Fail(404, NotFound)
      else Response(200, true, None, One(Document(id, store[id])))
  }

  /** Every field but the status is the same. */
  predicate SameButStatus(a: Appointment, b: Appointment) {
    && a.name == b.name && a.email == b.email && a.phone == b.phone && a.doctor == b.doctor
    && a.date == b.date && a.time == b.time && a.reason == b.reason && a.createdAt == b.createdAt
  }

  /** `PUT /api/appointments/:id`. The status is checked against the enum before the
      identifier is looked up, so an invalid status is a 400 even for an unknown id. */
  function UpdateStatus(store: Store, pid: PathId, status: Option<string>, reachable: bool)
    : (r: Step)
    ensures status.None? || ParseStatus(status.value).None? ==>
              r == Step(Fail(400, InvalidStatus), store)
    ensures r.response.success <==>
              && status.Some? && ParseStatus(status.value).Some?
              && pid.ObjectId? && reachable && pid.id in store
    ensures !r.response.success ==> r.store == store
    ensures (status.Some? && ParseStatus(status.value).Some? && pid.ObjectId? && reachable
             && pid.id !in store) ==> r.response == Fail(404, NotFound)
    ensures status.Some? && ParseStatus(status.value).Some? && (pid.Malformed? || !reachable) ==>
              r.response == Fail(500, UpdateError)
    ensures r.response.success ==>
              && r.store.Keys == store.Keys
              && (forall id | id in store && id != pid.id :: r.store[id] == store[id])
              && SameButStatus(r.store[pid.id], store[pid.id])
              && StatusName(r.store[pid.id].status) == status.value
              && r.response == Response(200, true, Some(Updated),
                                        One(Document(pid.id, r.store[pid.id])))
  {
    if status.None? || ParseStatus(status.value).None? then
      Step(Fail(400, InvalidStatus), store)
    else
      match pid
      case Malformed(_) => Step(Fail(500, UpdateError), store)
      case ObjectId(id) =>
        if !reachable then Step(Fail(500, UpdateError), store)
        else if id !in store then Step(Fail(404, NotFound), store)
        else
          var a := store[id].(status := ParseStatus(status.value).value);
          Step(Response(200, true, Some(Updated), One(Document(id, a))),
               store[id := a])
  }

  /** `DELETE /api/appointments/:id`. */
  function Delete(store: Store, pid: PathId, reachable: bool): (r: Step)
    ensures r.response.success <==> pid.ObjectId? && reachable && pid.id in store
    ensures !r.response.success ==> r.store == store
    ensures pid.ObjectId? && reachable && pid.id !in store ==>
              r.response == Fail(404, NotFound)
    ensures pid.Malformed? || !reachable ==> r.response == Fail(500, DeleteError)
    ensures r.response.success ==>
              && r.store.Keys == store.Keys - {pid.id}
              && (forall id | id in r.store :: r.store[id] == store[id])
              && r.response == Response(200, true, Some(Deleted), NoPayload)
  {
    match pid
    case Malformed(_) => Step(Fail(500, DeleteError), store)
    case ObjectId(id) =>
      if !reachable then Step(Fail(500, DeleteError), store)
      else if id !in store then Step(Fail(404, NotFound), store)
      else Step(Response(200, true, Some(Deleted), NoPayload), store - {id})
  }

  /** `GET /api/appointments`. */
  method GetAll(store: Store, reachable: bool) returns (r: Response)
    ensures !reachable ==> r == Fail(500, ListingError)
    ensures reachable ==> r.code == 200 && r.success && r.payload.Many?
    ensures r.payload.Many? ==>
              && r.payload.count == |r.payload.docs| == |store|
              && NewestFirst(r.payload.docs)
              && DrawnFrom(r.payload.docs, store)
              && DistinctIds(r.payload.docs)
              && forall id | id in store :: Document(id, store[id]) in r.payload.docs
  {
    if !reachable {
      return Fail(500, ListingError);
    }
    var docs := ListAll(store);
    r := Response(200, true, None, Many(docs, |docs|));
  }

  /** `GET /api/appointments/status/:status`. */
  method GetByStatus(store: Store, status: string, reachable: bool) returns (r: Response)
    ensures !reachable ==> r == Fail(500, ListingError)
    ensures reachable ==> r.code == 200 && r.success && r.payload.Many?
    ensures r.payload.Many? ==>
              && r.payload.count == |r.payload.docs|
              && DrawnFrom(r.payload.docs, store)
              && DistinctIds(r.payload.docs)
              && (forall x | x in r.payload.docs :: StatusName(x.appt.status) == status)
              && forall id | id in store && StatusName(store[id].status) == status ::
                   Document(id, store[id]) in r.payload.docs
  {
    if !reachable {
      return Fail(500, ListingError);
    }
    var docs := ListByStatus(store, status);
    r := Response(200, true, None, Many(docs, |docs|));
  }

  /** A booking that fails changes nothing, a successful one adds only the fresh identifier,
      and either way every stored document stays within the schema. */
  lemma BookKeepsSchema(store: Store, b: BookingBody, v: Validators, reachable: bool, freshId: Id, now: int)
    ensures var r := Book(store, b, v, reachable, freshId, now);
            && (!r.response.success ==> r.store == store)
            && r.store.Keys <= store.Keys + {freshId}
            && (StoreConforms(store, v) ==> StoreConforms(r.store, v))
  {
    var r := Book(store, b, v, reachable, freshId, now);
    if r.response.code == 201 && StoreConforms(store, v) {
      assert Conforms(r.store[freshId], v);
      forall id | id in r.store ensures Conforms(r.store[id], v) {
        if id != freshId { assert r.store[id] == store[id]; }
      }
    }
  }

  /** A status change that fails changes nothing, and since the schema does not constrain the
      status beyond its enum, a successful one keeps the collection conforming. */
  lemma UpdateKeepsSchema(store: Store, pid: PathId, status: Option<string>, v: Validators, reachable: bool)
    ensures var r := UpdateStatus(store, pid, status, reachable);
            && (!r.response.success ==> r.store == store)
            && r.store.Keys <= store.Keys
            && (StoreConforms(store, v) ==> StoreConforms(r.store, v))
  {
    var r := UpdateStatus(store, pid, status, reachable);
    if r.response.success && StoreConforms(store, v) {
      forall id | id in r.store ensures Conforms(r.store[id], v) {
        if id != pid.id { assert r.store[id] == store[id]; }
        else { assert SameButStatus(r.store[id], store[id]) && Conforms(store[id], v); }
      }
    }
  }

  /** A deletion that fails changes nothing, and removing a document keeps the rest
      conforming. */
  lemma DeleteKeepsSchema(store: Store, pid: PathId, v: Validators, reachable: bool)
    ensures var r := Delete(store, pid, reachable);
            && (!r.response.success ==> r.store == store)
            && r.store.Keys <= store.Keys
            && (StoreConforms(store, v) ==> StoreConforms(r.store, v))
  {
    var r := Delete(store, pid, reachable);
    if StoreConforms(store, v) {
      forall id | id in r.store ensures Conforms(r.store[id], v) {
        assert r.store[id] == store[id];
      }
    }
  }

  /** The routes of the appointment API. */
  datatype Request =
    | PostAppointment(body: BookingBody)
    | GetAppointments
    | GetAppointment(id: PathId)
    | PutAppointment(id: PathId, status: Option<string>)
    | DeleteAppointment(id: PathId)
    | GetAppointmentsByStatus(wanted: string)

  predicate IsRead(req: Request) {
    req.GetAppointments? || req.GetAppointment? || req.GetAppointmentsByStatus?
  }

  /** What the environment supplies to one request. */
  datatype Context = Context(reachable: bool, freshId: Id, now: int)

  /** A write route as `Serve` sees it: a failure changes nothing, at most the fresh
      identifier is added, and the schema is kept. */
  predicate SafeWrite(store: Store, r: Response, next: Store, v: Validators, freshId: Id) {
    && (!r.success ==> next == store)
    && next.Keys <= store.Keys + {freshId}
    && (StoreConforms(store, v) ==> StoreConforms(next, v))
  }

  /** `POST /api/appointments` as one write. */
  method BookRoute(store: Store, body: BookingBody, v: Validators, ctx: Context)
    returns (r: Response, next: Store)
    ensures SafeWrite(store, r, next, v, ctx.freshId)
  {
    var b := Book(store, body, v, ctx.reachable, ctx.freshId, ctx.now);
    BookKeepsSchema(store, body, v, ctx.reachable, ctx.freshId, ctx.now);
    r, next := b.response, b.store;
  }

  /** `PUT /api/appointments/:id` as one write. */
  method UpdateRoute(store: Store, pid: PathId, status: Option<string>, v: Validators, ctx: Context)
    returns (r: Response, next: Store)
    ensures SafeWrite(store, r, next, v, ctx.freshId)
  {
    var s := UpdateStatus(store, pid, status, ctx.reachable);
    UpdateKeepsSchema(store, pid, status, v, ctx.reachable);
    r, next := s.response, s.store;
  }

  /** `DELETE /api/appointments/:id` as one write. */
  method DeleteRoute(store: Store, pid: PathId, v: Validators, ctx: Context)
    returns (r: Response, next: Store)
    ensures SafeWrite(store, r, next, v, ctx.freshId)
  {
    var s := Delete(store, pid, ctx.reachable);
    DeleteKeepsSchema(store, pid, v, ctx.reachable);
    r, next := s.response, s.store;
  }

  /** One request against the collection. Reads leave it as it was, a failed request leaves
      it as it was, and every request keeps every document within the schema. */
  method Serve(store: Store, req: Request, v: Validators, ctx: Context)
    returns (r: Response, next: Store)
    ensures IsRead(req) ==> next == store
    ensures !r.success ==> next == store
    ensures StoreConforms(store, v) ==> StoreConforms(next, v)
    ensures next.Keys <= store.Keys + {ctx.freshId}
  {
    match req
    case PostAppointment(body) =>
      r, next := BookRoute(store, body, v, ctx);
    case GetAppointments =>
      r := GetAll(store, ctx.reachable);
      next := store;
    case GetAppointment(pid) =>
      r, next := Get(store, pid, ctx.reachable), store;
    case PutAppointment(pid, status) =>
      r, next := UpdateRoute(store, pid, status, v, ctx);
    case DeleteAppointment(pid) =>
      r, next := DeleteRoute(store, pid, v, ctx);
    case GetAppointmentsByStatus(status) =>
      r := GetByStatus(store, status, ctx.reachable);
      next := store;
  }
}

=== FILE: api_lemmas.dfy ===
/** How the handlers compose: what a later read sees after a booking, a status change or a
    deletion, and the edge cases of the booking route. */
module ApiLemmas {
  import opened Wrappers
  import opened JsText
  import opened Schema
  import opened Api

  /** A booking whose body passes the route's checks and builds a document, saved under a
      free identifier, succeeds and can be read back under its new identifier, with status pending,
      name and reason trimmed, email lower-cased and the other fields as sent. */
  lemma BookThenGet(store: Store, b: BookingBody, v: Validators, freshId: Id, now: int)
    requires RouteAccepts(b, v) && Cast(FieldsOf(b), v, now).Some? && freshId !in store
    ensures Book(store, b, v, true, freshId, now).response.code == 201
    ensures var after := Book(store, b, v, true, freshId, now).store;
            var r := Get(after, ObjectId(freshId), true);
            && r.code == 200 && r.payload.One? && r.payload.doc.id == freshId
            && var a := r.payload.doc.appt;
               && a.status == Pending
               && a.createdAt == now
               && IsTrimOf(a.name, b.name.value) && IsTrimOf(a.reason, b.reason.value)
               && a.email == ToLower(b.email.value)
               && a.phone == b.phone.value
               && DoctorId(a.doctor) == b.doctor.value
               && Some(a.date) == v.parseDate(b.date.value)
               && a.time == b.time.value
  {
  }

  /** A booking that succeeds adds exactly one document, so the collection grows by one. */
  lemma BookAddsOne(store: Store, b: BookingBody, v: Validators, reachable: bool, freshId: Id, now: int)
    requires RouteAccepts(b, v) && Cast(FieldsOf(b), v, now).Some? && reachable && freshId !in store
    ensures |Book(store, b, v, reachable, freshId, now).store| == |store| + 1
  {
    var after := Book(store, b, v, reachable, freshId, now).store;
    assert after.Keys == store.Keys + {freshId};
    assert freshId !in store.Keys;
    assert |after.Keys| == |store.Keys| + 1;
  }

  /** A name of whitespace alone is truthy, so it passes the route's own check, but the
      `trim` setter empties it and the `required` validator then fails: a 500, nothing saved. */
  lemma WhitespaceNameFailsOnSave(store: Store, b: BookingBody, v: Validators, reachable: bool,
                                  freshId: Id, now: int)
    requires RouteAccepts(b, v) && AllSpace(b.name.value)
    ensures Book(store, b, v, reachable, freshId, now) ==
            Booking(Fail(500, BookingError), store, [])
  {
    TrimEmptyIff(b.name.value);
  }

  /** An identifier outside the doctor enum passes the route's checks but fails validation
      on save: a 500, not a 400. */
  lemma UnknownDoctorFailsOnSave(store: Store, b: BookingBody, v: Validators, reachable: bool,
                                 freshId: Id, now: int)
    requires RouteAccepts(b, v) && ParseDoctor(b.doctor.value).None?
    ensures Book(store, b, v, reachable, freshId, now) ==
            Booking(Fail(500, BookingError), store, [])
  {
    assert Cast(FieldsOf(b), v, now).None?;
  }

  /** After a successful status change, reading the document shows the new status and
      everything else as before. */
  lemma UpdateThenGet(store: Store, id: Id, status: string)
    requires UpdateStatus(store, ObjectId(id), Some(status), true).response.success
    ensures var after := UpdateStatus(store, ObjectId(id), Some(status), true).store;
            var r := Get(after, ObjectId(id), true);
            && r.code == 200
            && StatusName(r.payload.doc.appt.status) == status
            && SameButStatus(r.payload.doc.appt, store[id])
  {
  }

  /** A status outside the enum changes nothing, whatever the identifier: every later read
      answers as it would have before. */
  lemma InvalidStatusChangesNothing(store: Store, pid: PathId, status: string, reachable: bool,
                                    other: PathId)
    requires ParseStatus(status).None?
    ensures UpdateStatus(store, pid, Some(status), reachable).response == Fail(400, InvalidStatus)
    ensures Get(UpdateStatus(store, pid, Some(status), reachable).store, other, true)
            == Get(store, other, true)
  {
  }

  /** After a deletion the identifier is gone: reading it is a 404, and deleting it again is
      a 404 that changes nothing. */
  lemma DeleteThenGet(store: Store, id: Id)
    requires Delete(store, ObjectId(id), true).response.success
    ensures var after := Delete(store, ObjectId(id), true).store;
            && Get(after, ObjectId(id), true) == Fail(404, NotFound)
            && Delete(after, ObjectId(id), true) == Step(Fail(404, NotFound), after)
            && |after| == |store| - 1
  {
    var after := Delete(store, ObjectId(id), true).store;
    assert after.Keys == store.Keys - {id};
    assert |after.Keys| == |store.Keys| - 1;
  }

  /** The messages the booking route answers with. */
  predicate BookingMessage(m: Message) {
    m.AllFieldsRequired? || m.InvalidEmailAddress? || m.InvalidPhoneNumber? || m.Booked? ||
    m.BookingError?
  }

  /** Every answer of the booking route carries one of its five messages. */
  lemma BookAnswersBookingMessage(store: Store, b: BookingBody, v: Validators, reachable: bool,
                                  freshId: Id, now: int)
    ensures var m := Book(store, b, v, reachable, freshId, now).response.message;
            m.Some? && BookingMessage(m.value)
  {
  }

  /** The booking page shows the route's `message` when a booking fails. No two booking
      messages share a text, so the text alone tells the patient what happened. */
  lemma BookingTextsDistinct(m: Message, n: Message)
    requires BookingMessage(m) && BookingMessage(n)
    ensures Text(m) == Text(n) <==> m == n
  {
    BookingTextLengths();
  }

  /** The five booking texts differ in length. */
  lemma BookingTextLengths()
    ensures |Text(AllFieldsRequired)| == 23 && |Text(InvalidEmailAddress)| == 21
    ensures |Text(InvalidPhoneNumber)| == 20 && |Text(Booked)| == 32
    ensures |Text(BookingError)| == 25
  {
  }
}

=== FILE: client_form.dfy ===
/** The browser side of booking: collecting the seven form fields (trimming four of them),
    the `validateForm` pass, and the decision whether a booking request is sent at all. */
module ClientForm {
  import opened Wrappers
  import opened JsText
  import opened Patterns

  /** The seven booking fields, as strings. `date` is the text of the date input. */
  datatype Form = Form(
    name: string,
    email: string,
    phone: string,
    doctor: string,
    date: string,
    time: string,
    reason: string)

  /** What `validateForm` concluded; each rejection shows its own banner. */
  datatype Verdict = Accepted | MissingField | InvalidEmail | InvalidPhone | PastDate

  /** The browser's view of time and date parsing. `today` is the day number of the current
      local day. `dayOf(date)` is the local day on which the instant `new Date(date)` falls, or
      None for an Invalid Date. A `YYYY-MM-DD` string is read as midnight UTC, so west of UTC
      the current day's string falls on the local day before. */
  datatype Clock = Clock(today: int, dayOf: string -> Option<int>)

  /** JavaScript truthiness of a string field: only the empty string is falsy. */
  predicate SomeFieldEmpty(f: Form) {
    f.name == [] || f.email == [] || f.phone == [] || f.doctor == []
    || f.date == [] || f.time == [] || f.reason == []
  }

  /** The date check. Comparing an Invalid Date with `<` is false, so an unparseable date is
      not rejected here; a parsed day is rejected only when it lies strictly before today. */
  predicate NotInPast(selected: Option<int>, today: int) {
    match selected
    case None => true
    case Some(day) => day >= today
  }

  /** `validateForm`: four checks in a fixed order, the first failing one deciding. */
  function Check(f: Form, clock: Clock): (v: Verdict)
    ensures v == MissingField <==> SomeFieldEmpty(f)
    ensures v == InvalidEmail <==> !SomeFieldEmpty(f) && !MatchesEmailRegex(f.email)
    ensures v == InvalidPhone <==>
              !SomeFieldEmpty(f) && MatchesEmailRegex(f.email) && !PhoneShape(f.phone)
    ensures v == PastDate <==>
              && !SomeFieldEmpty(f) && MatchesEmailRegex(f.email) && PhoneShape(f.phone)
              && !NotInPast(clock.dayOf(f.date), clock.today)
  {
    EmailRegexIff(f.email);
    if SomeFieldEmpty(f) then MissingField
    else if !EmailShape(f.email) then InvalidEmail
    else if !PhoneShape(f.phone) then InvalidPhone
    else if !NotInPast(clock.dayOf(f.date), clock.today) then PastDate
    else Accepted
  }

  /** The boolean `validateForm` returns. */
  function ValidateForm(f: Form, clock: Clock): (ok: bool)
    ensures ok <==>
              && !SomeFieldEmpty(f)
              && MatchesEmailRegex(f.email)
              && PhoneShape(f.phone)
              && NotInPast(clock.dayOf(f.date), clock.today)
  {
    Check(f, clock) == Accepted
  }

  /** The banner text shown for each rejection. */
  function Banner(v: Verdict): (t: string)
    ensures t == [] <==> v == Accepted
  {
    match v
    case Accepted => ""
    case MissingField => "All fields are required."
    case InvalidEmail => "Please enter a valid email address."
    case InvalidPhone => "Please enter a valid phone number."
    case PastDate => "Please select a future date."
  }

  /** The `formData` object built from the raw inputs: name, email, phone and reason are
      trimmed; doctor, date and time are taken as they are. */
  function Collect(raw: Form): (f: Form)
    ensures IsTrimOf(f.name, raw.name) && IsTrimOf(f.email, raw.email)
    ensures IsTrimOf(f.phone, raw.phone) && IsTrimOf(f.reason, raw.reason)
    ensures f.doctor == raw.doctor && f.date == raw.date && f.time == raw.time
  {
    Form(Trim(raw.name), Trim(raw.email), Trim(raw.phone), raw.doctor, raw.date, raw.time,
         Trim(raw.reason))
  }

  /** What `handleBooking` does with a submission: either it stops with a banner, or it
      sends the collected form as the body of `POST /api/appointments`. */
  datatype Submission = Blocked(verdict: Verdict) | Send(body: Form)

  function HandleBooking(raw: Form, clock: Clock): (s: Submission)
    ensures s.Blocked? <==> !ValidateForm(Collect(raw), clock)
    ensures s.Blocked? ==> s.verdict != Accepted && s.verdict == Check(Collect(raw), clock)
    ensures s.Send? ==> s.body == Collect(raw) && ValidateForm(s.body, clock)
  {
    var f := Collect(raw);
    var v := Check(f, clock);
    if v != Accepted then Blocked(v) else Send(f)
  }

  /** A field left blank as typed: one of the four trimmed fields holding whitespace alone,
      or one of the other three empty. */
  predicate Blank(raw: Form) {
    || AllSpace(raw.name) || AllSpace(raw.email) || AllSpace(raw.phone) || AllSpace(raw.reason)
    || raw.doctor == [] || raw.date == [] || raw.time == []
  }

  /** The empty check on the collected form fires exactly when a field was left blank. */
  lemma MissingIffBlank(raw: Form)
    ensures SomeFieldEmpty(Collect(raw)) <==> Blank(raw)
  {
    TrimEmptyIff(raw.name);
    TrimEmptyIff(raw.email);
    TrimEmptyIff(raw.phone);
    TrimEmptyIff(raw.reason);
  }

  /** Because four fields are trimmed before the empty check, a name, email, phone or reason
      made of whitespace alone is reported as missing and nothing is sent. */
  lemma WhitespaceOnlyIsMissing(raw: Form, clock: Clock)
    requires AllSpace(raw.name) || AllSpace(raw.email) || AllSpace(raw.phone) || AllSpace(raw.reason)
    ensures HandleBooking(raw, clock) == Blocked(MissingField)
  {
    TrimEmptyIff(raw.name);
    TrimEmptyIff(raw.email);
    TrimEmptyIff(raw.phone);
    TrimEmptyIff(raw.reason);
  }

  /** Doctor, date and time are read without trimming: typed as a single space, they reach
      the empty check as that space, which is not empty, so the form is not reported as
      missing a field when the four trimmed fields hold more than whitespace. */
  lemma UntrimmedFieldsKeepSpaces(raw: Form, clock: Clock)
    requires !AllSpace(raw.name) && !AllSpace(raw.email) && !AllSpace(raw.phone) && !AllSpace(raw.reason)
    requires raw.doctor == " " && raw.date == " " && raw.time == " "
    ensures HandleBooking(raw, clock) != Blocked(MissingField)
  {
    MissingIffBlank(raw);
  }

  /** A form with nothing to trim, no empty field, and an email and phone of the right shape
      is decided by its date alone: sent as typed, or blocked as past. */
  lemma CleanFormOutcome(raw: Form, clock: Clock)
    requires Trimmed(raw.name) && Trimmed(raw.email) && Trimmed(raw.phone) && Trimmed(raw.reason)
    requires !SomeFieldEmpty(raw) && EmailShape(raw.email) && PhoneShape(raw.phone)
    ensures NotInPast(clock.dayOf(raw.date), clock.today) ==> HandleBooking(raw, clock) == Send(raw)
    ensures !NotInPast(clock.dayOf(raw.date), clock.today) ==>
              HandleBooking(raw, clock) == Blocked(PastDate)
  {
    NothingToTrim(raw);
    EmailRegexIff(raw.email);
  }

  /** When the four trimmed fields have no whitespace at either end, collecting changes
      nothing. */
  lemma NothingToTrim(raw: Form)
    requires Trimmed(raw.name) && Trimmed(raw.email) && Trimmed(raw.phone) && Trimmed(raw.reason)
    ensures Collect(raw) == raw
  {
    TrimmedIsFixed(raw.name);
    TrimmedIsFixed(raw.email);
    TrimmedIsFixed(raw.phone);
    TrimmedIsFixed(raw.reason);
  }

  /** The current day itself is accepted; the day before is not. */
  lemma TodayIsNotPast(f: Form, clock: Clock)
    requires !SomeFieldEmpty(f) && EmailShape(f.email) && PhoneShape(f.phone)
    ensures clock.dayOf(f.date) == Some(clock.today) ==> Check(f, clock) == Accepted
    ensures clock.dayOf(f.date) == Some(clock.today - 1) ==> Check(f, clock) == PastDate
  {
    EmailRegexIff(f.email);
  }

  /** `validateForm` shows a banner exactly when it returns false, and every failed check has a
      banner of its own, so the patient can tell which check failed. */
  lemma BannerNamesTheCheck(f: Form, clock: Clock, other: Verdict)
    ensures !ValidateForm(f, clock) <==> Banner(Check(f, clock)) != []
    ensures Banner(Check(f, clock)) == Banner(other) <==> Check(f, clock) == other
  {
  }
}

=== FILE: end_to_end.dfy ===
/** Facts about the sample patient's address, kept apart from the larger modules so that
    reasoning about the literal stays small. */
module SampleText {
  import opened JsText
  import opened Patterns

  /** The sample address is already lower case. */
  lemma EmailIsLowerCase()
    ensures ToLower("jane@example.com") == "jane@example.com"
  {
  }

  lemma LocalIsPlain() ensures PlainRun("jane") {}
  lemma DomainIsPlain() ensures PlainRun("example") {}
  lemma TldIsPlain() ensures PlainRun("com") {}
  lemma AddressParts() ensures "jane" + "@" + "example" + "." + "com" == "jane@example.com" {}

  /** The sample address has the shape the form demands. */
  lemma EmailIsClean()
    ensures EmailShape("jane@example.com")
  {
    LocalIsPlain();
    DomainIsPlain();
    TldIsPlain();
    AddressParts();
    JoinedAddress("jane", "example", "com");
  }

  lemma PhoneIsClean()
    ensures PhoneShape("9876543210")
  {
  }
}

/** The browser and the server together: what the server makes of a form the browser lets
    through, and where the two sets of rules part ways. */
module EndToEnd {
  import opened Wrappers
  import opened JsText
  import opened Schema
  import opened Patterns
  import opened ClientForm
  import opened Api
  import SampleText

  /** The JSON body `handleBooking` posts: every field of the collected form, as a string.
      The server's presence check passes exactly when the browser's empty check does, and the
      server then reads back the fields the browser sent. */
  function BodyOf(f: Form): (b: BookingBody)
    ensures AllPresent(b) <==> !SomeFieldEmpty(f)
    ensures AllPresent(b) ==> FieldsOf(b) == Fields(f.name, f.email, f.phone, f.doctor, f.date, f.time, f.reason)
  {
    BookingBody(Some(f.name), Some(f.email), Some(f.phone), Some(f.doctor), Some(f.date),
                Some(f.time), Some(f.reason))
  }

  /** The foreign checks and casts that the server applies and the browser does not. */
  predicate ServerSideAccepts(f: Form, v: Validators) {
    && v.isEmail(f.email) && v.isEmail(ToLower(f.email)) && v.isMobilePhone(f.phone)
    && ParseDoctor(f.doctor).Some? && v.parseDate(f.date).Some?
  }

  /** A form with no empty field, nothing to trim in name and reason, and values the
      server's validators accept is booked as sent: pending, with the chosen doctor, and both
      notices go out, the patient's to the lower-cased address. */
  lemma CleanFormBooked(store: Store, f: Form, v: Validators, freshId: Id, now: int)
    requires !SomeFieldEmpty(f) && Trimmed(f.name) && Trimmed(f.reason)
    requires ServerSideAccepts(f, v) && freshId !in store
    ensures var r := Book(store, BodyOf(f), v, true, freshId, now);
            && r.response.code == 201
            && var a := r.store[freshId];
               && a.name == f.name && a.reason == f.reason && a.email == ToLower(f.email)
               && a.phone == f.phone && DoctorId(a.doctor) == f.doctor && a.time == f.time
               && a.status == Pending && a.createdAt == now
               && r.mails == [PatientConfirmation(ToLower(f.email)), AdminNotice(Document(freshId, a))]
  {
    var b := BodyOf(f);
    TrimmedIsFixed(f.name);
    TrimmedIsFixed(f.reason);
    assert RouteAccepts(b, v);
    assert FieldsOf(b) == Fields(f.name, f.email, f.phone, f.doctor, f.date, f.time, f.reason);
    assert Cast(FieldsOf(b), v, now).Some?;
    var a := Book(store, b, v, true, freshId, now).store[freshId];
    TrimUnique(a.name, f.name);
    TrimUnique(a.reason, f.reason);
  }

  /** What the server does with a collected form that has no blank field, whatever the
      browser concluded about it. */
  lemma ServerBooksCollectedForm(raw: Form, store: Store, v: Validators, freshId: Id, now: int)
    requires !Blank(raw)
    ensures var r := Book(store, BodyOf(Collect(raw)), v, true, freshId, now);
            && r.response != Fail(400, AllFieldsRequired)
            && (ServerSideAccepts(Collect(raw), v) && freshId !in store ==> r.response.code == 201)
  {
    MissingIffBlank(raw);
    var f := Collect(raw);
    var b := BodyOf(f);
    assert AllPresent(b);
    var r := Book(store, b, v, true, freshId, now);
    if !RouteAccepts(b, v) {
      assert r.response.message == Some(InvalidEmailAddress) || r.response.message == Some(InvalidPhoneNumber);
    } else if r.response.code != 201 {
      assert r.response.message == Some(BookingError);
    }
    if ServerSideAccepts(f, v) && freshId !in store {
      CleanFormBooked(store, f, v, freshId, now);
    }
  }

  /** A form the browser sends is never answered AllFieldsRequired, and when the
      server's own validators accept its values it is booked. */
  lemma SentFormIsBooked(raw: Form, clock: Clock, store: Store, v: Validators, freshId: Id, now: int)
    requires HandleBooking(raw, clock).Send?
    ensures var r := Book(store, BodyOf(HandleBooking(raw, clock).body), v, true, freshId, now);
            && r.response != Fail(400, AllFieldsRequired)
            && (ServerSideAccepts(HandleBooking(raw, clock).body, v) && freshId !in store ==>
                  r.response.code == 201)
  {
    var f := HandleBooking(raw, clock).body;
    assert f == Collect(raw) && ValidateForm(f, clock);
    MissingIffBlank(raw);
    ServerBooksCollectedForm(raw, store, v, freshId, now);
  }

  /** The server does not compare the date with the current day: a form the browser rejects
      only for its past date is booked when posted directly. */
  lemma PastDateBookedByServer(raw: Form, clock: Clock, store: Store, v: Validators, freshId: Id,
                               now: int)
    requires Check(Collect(raw), clock) == PastDate
    requires ServerSideAccepts(Collect(raw), v) && freshId !in store
    ensures Book(store, BodyOf(Collect(raw)), v, true, freshId, now).response.code == 201
  {
    MissingIffBlank(raw);
    ServerBooksCollectedForm(raw, store, v, freshId, now);
  }

  /** The sample patient's form, as typed. */
  function SampleForm(date: string): Form {
    Form("Jane Doe", "jane@example.com", "9876543210", "rakesh-gupta", date, "10:00", "checkup")
  }

  /** The sample form has nothing to trim, no empty field, and an address and number of the
      shape the browser demands. */
  lemma SampleIsClean(date: string)
    requires date != []
    ensures var f := SampleForm(date);
            && Trimmed(f.name) && Trimmed(f.email) && Trimmed(f.phone) && Trimmed(f.reason)
            && !SomeFieldEmpty(f) && EmailShape(f.email) && PhoneShape(f.phone)
  {
    SampleText.EmailIsClean();
    SampleText.PhoneIsClean();
  }

  /** Dated tomorrow, the sample form passes every browser check and is sent as typed. */
  lemma SampleIsSent(clock: Clock, date: string)
    requires date != [] && clock.dayOf(date) == Some(clock.today + 1)
    ensures HandleBooking(SampleForm(date), clock) == Send(SampleForm(date))
  {
    SampleIsClean(date);
    CleanFormOutcome(SampleForm(date), clock);
  }

  /** Dated yesterday, the same form is blocked for its date alone. */
  lemma SampleIsBlocked(clock: Clock, date: string)
    requires date != [] && clock.dayOf(date) == Some(clock.today - 1)
    ensures HandleBooking(SampleForm(date), clock) == Blocked(PastDate)
  {
    SampleIsClean(date);
    assert !NotInPast(clock.dayOf(SampleForm(date).date), clock.today);
    CleanFormOutcome(SampleForm(date), clock);
  }

  /** The server saves the sample form as a pending appointment with the chosen doctor and
      sends both notices, the patient's to the address as typed. */
  lemma SampleIsBooked(store: Store, v: Validators, date: string, freshId: Id, now: int)
    requires v.isEmail("jane@example.com") && v.isMobilePhone("9876543210")
    requires date != [] && v.parseDate(date).Some? && freshId !in store
    ensures var r := Book(store, BodyOf(SampleForm(date)), v, true, freshId, now);
            && r.response.code == 201
            && r.store[freshId].status == Pending
            && r.store[freshId].doctor == RakeshGupta
            && r.mails == [PatientConfirmation("jane@example.com"),
                           AdminNotice(Document(freshId, r.store[freshId]))]
  {
    SampleText.EmailIsLowerCase();
    assert ParseDoctor("rakesh-gupta") == Some(RakeshGupta);
    CleanFormBooked(store, SampleForm(date), v, freshId, now);
    var a := Book(store, BodyOf(SampleForm(date)), v, true, freshId, now).store[freshId];
    EnumRoundTrips(a.doctor, Pending);
  }
}

=== FILE: jstext.dfy ===
/** The few ECMAScript string primitives the booking code relies on: the `\s` character class,
    `String.prototype.trim` (which strips exactly the same characters) and `toLowerCase`. */
module JsText {

  /** The characters matched by `\s` in an ECMAScript regular expression: WhiteSpace and
      LineTerminator. `trim` removes exactly these characters. */
  predicate IsSpace(c: char) {
    || c == '\t' || c == '\n' || c == '\U{000B}' || c == '\U{000C}' || c == '\r' || c == ' '
    || c == '\U{00A0}' || c == '\U{1680}' || ('\U{2000}' <= c <= '\U{200A}')
    || c == '\U{2028}' || c == '\U{2029}' || c == '\U{202F}' || c == '\U{205F}'
    || c == '\U{3000}' || c == '\U{FEFF}'
  }

  predicate AllSpace(s: string) {
    forall k | 0 <= k < |s| :: IsSpace(s[k])
  }

  /** Neither the first nor the last character is whitespace. */
  predicate Trimmed(s: string) {
    |s| == 0 || (!IsSpace(s[0]) && !IsSpace(s[|s| - 1]))
  }

  /** `r` is what is left of `s` once whitespace is cut from both ends: a contiguous piece of
      `s`, flanked by whitespace only, that itself neither starts nor ends with whitespace. */
  ghost predicate IsTrimOf(r: string, s: string) {
    && Trimmed(r)
    && |r| <= |s|
    && exists i | 0 <= i <= |s| - |r| ::
         && s[i..i + |r|] == r
         && AllSpace(s[..i])
         && AllSpace(s[i + |r|..])
  }

  /** Drops leading whitespace. */
  function TrimStart(s: string): (r: string)
    ensures |r| <= |s| && r == s[|s| - |r|..]
    ensures AllSpace(s[..|s| - |r|])
    ensures |r| == 0 || !IsSpace(r[0])
    decreases |s|
  {
    if |s| > 0 && IsSpace(s[0]) then
      var r := TrimStart(s[1..]);
      LeadingSpaceDropped(s, r);
      r
    else
      s
  }

  /** The recursive step of `TrimStart`: what is left after the first whitespace character
      and the whitespace following it is still a suffix with whitespace in front. */
  lemma LeadingSpaceDropped(s: string, r: string)
    requires |s| > 0 && IsSpace(s[0]) && |r| <= |s| - 1
    requires r == s[1..][|s| - 1 - |r|..] && AllSpace(s[1..][..|s| - 1 - |r|])
    ensures r == s[|s| - |r|..] && AllSpace(s[..|s| - |r|])
  {
    var n := |s| - 1 - |r|;
    forall k | 0 < k < n + 1 ensures IsSpace(s[k]) { assert s[k] == s[1..][..n][k - 1]; }
  }

  /** Drops trailing whitespace. */
  function TrimEnd(s: string): (r: string)
    ensures |r| <= |s| && r == s[..|r|]
    ensures AllSpace(s[|r|..])
    ensures |r| == 0 || !IsSpace(r[|r| - 1])
    decreases |s|
  {
    if |s| > 0 && IsSpace(s[|s| - 1]) then TrimEnd(s[..|s| - 1]) else s
  }

  /** `String.prototype.trim`. */
  function Trim(s: string): (r: string)
    ensures IsTrimOf(r, s)
  {
    TrimEndOfTrimStart(s, TrimStart(s), TrimEnd(TrimStart(s)));
    TrimEnd(TrimStart(s))
  }

  /** Cutting leading whitespace and then trailing whitespace leaves a trim of the input. */
  lemma TrimEndOfTrimStart(s: string, t: string, r: string)
    requires |t| <= |s| && t == s[|s| - |t|..] && AllSpace(s[..|s| - |t|])
    requires |t| == 0 || !IsSpace(t[0])
    requires |r| <= |t| && r == t[..|r|] && AllSpace(t[|r|..])
    requires |r| == 0 || !IsSpace(r[|r| - 1])
    ensures IsTrimOf(r, s)
  {
    var i := |s| - |t|;
    assert s[i..i + |r|] == r;
    assert s[i + |r|..] == t[|r|..];
  }

  /** A string of whitespace only has exactly one trim: the empty string. */
  lemma AllSpaceTrimsToEmpty(s: string)
    requires AllSpace(s)
    ensures Trim(s) == []
  {
  }

  /** Whitespace on both sides of a cut point means whitespace throughout. */
  lemma AllSpaceJoin(s: string, i: int)
    requires 0 <= i <= |s| && AllSpace(s[..i]) && AllSpace(s[i..])
    ensures AllSpace(s)
  {
    forall k | 0 <= k < |s| ensures IsSpace(s[k]) {
      if k < i { assert s[..i][k] == s[k]; } else { assert s[i..][k - i] == s[k]; }
    }
  }

  /** Only one position can be the first non-whitespace character. */
  lemma FirstNonSpaceUnique(s: string, i: int, i0: int)
    requires 0 <= i < |s| && 0 <= i0 < |s|
    requires AllSpace(s[..i]) && AllSpace(s[..i0])
    requires !IsSpace(s[i]) && !IsSpace(s[i0])
    ensures i == i0
  {
  }

  /** Only one position can follow the last non-whitespace character. */
  lemma LastNonSpaceUnique(s: string, j: int, j0: int)
    requires 0 < j <= |s| && 0 < j0 <= |s|
    requires AllSpace(s[j..]) && AllSpace(s[j0..])
    requires !IsSpace(s[j - 1]) && !IsSpace(s[j0 - 1])
    ensures j == j0
  {
  }

  /** The only trim of an all-whitespace string is empty. */
  lemma TrimOfAllSpace(t: string, s: string)
    requires AllSpace(s) && IsTrimOf(t, s)
    ensures t == []
  {
    var i0 :| 0 <= i0 <= |s| - |t| && s[i0..i0 + |t|] == t;
  }

  /** Two non-empty trims taken at offsets `i` and `i0` start and end at the same places. */
  lemma NonEmptyTrimsAgree(r: string, t: string, s: string, i: int, i0: int)
    requires Trimmed(r) && Trimmed(t) && |r| > 0 && |t| > 0
    requires 0 <= i <= |s| - |r| && s[i..i + |r|] == r && AllSpace(s[..i]) && AllSpace(s[i + |r|..])
    requires 0 <= i0 <= |s| - |t| && s[i0..i0 + |t|] == t && AllSpace(s[..i0]) && AllSpace(s[i0 + |t|..])
    ensures r == t
  {
    assert r[0] == s[i] && t[0] == s[i0];
    FirstNonSpaceUnique(s, i, i0);
    assert r[|r| - 1] == s[i + |r| - 1] && t[|t| - 1] == s[i0 + |t| - 1];
    LastNonSpaceUnique(s, i + |r|, i0 + |t|);
  }

  /** Two trims of the same string agree. */
  lemma TrimsAgree(r: string, t: string, s: string)
    requires IsTrimOf(r, s) && IsTrimOf(t, s)
    ensures r == t
  {
    var i :| 0 <= i <= |s| - |r| && s[i..i + |r|] == r && AllSpace(s[..i]) && AllSpace(s[i + |r|..]);
    var i0 :| 0 <= i0 <= |s| - |t| && s[i0..i0 + |t|] == t && AllSpace(s[..i0]) && AllSpace(s[i0 + |t|..]);
    if |r| == 0 {
      AllSpaceJoin(s, i);
      TrimOfAllSpace(t, s);
    } else if |t| == 0 {
      AllSpaceJoin(s, i0);
      TrimOfAllSpace(r, s);
    } else {
      NonEmptyTrimsAgree(r, t, s, i, i0);
    }
  }

  /** The trim of a string is unique: whatever cuts whitespace off both ends of `s` and leaves
      no whitespace at either end is `Trim(s)`. */
  lemma TrimUnique(r: string, s: string)
    requires IsTrimOf(r, s)
    ensures r == Trim(s)
  {
    TrimsAgree(r, Trim(s), s);
  }

  /** A string without whitespace at either end is its own trim. */
  lemma TrimmedIsFixed(s: string)
    requires Trimmed(s)
    ensures Trim(s) == s
  {
    assert s[0..0 + |s|] == s && s[..0] == [] && s[0 + |s|..] == [];
    assert IsTrimOf(s, s);
    TrimUnique(s, s);
  }

  /** Trimming twice is trimming once. */
  lemma TrimIdempotent(s: string)
    ensures Trim(Trim(s)) == Trim(s)
  {
    TrimmedIsFixed(Trim(s));
  }

  /** A string trims to empty exactly when it is whitespace only. */
  lemma TrimEmptyIff(s: string)
    ensures Trim(s) == [] <==> AllSpace(s)
  {
    if AllSpace(s) {
      AllSpaceTrimsToEmpty(s);
    } else if Trim(s) == [] {
      var i :| 0 <= i <= |s| && s[i..i] == [] && AllSpace(s[..i]) && AllSpace(s[i..]);
      AllSpaceJoin(s, i);
    }
  }

  predicate IsAsciiUpper(c: char) { 'A' <= c <= 'Z' }

  /** `toLowerCase` on one character, restricted to the ASCII letters. */
  function LowerChar(c: char): (d: char)
    ensures !IsAsciiUpper(d)
    ensures IsAsciiUpper(c) ==> 'a' <= d <= 'z' && d as int - c as int == 'a' as int - 'A' as int
    ensures !IsAsciiUpper(c) ==> d == c
  {
    if IsAsciiUpper(c) then (c as int - 'A' as int + 'a' as int) as char else c
  }

  /** `String.prototype.toLowerCase`, restricted to ASCII letters. */
  function ToLower(s: string): (r: string)
    ensures |r| == |s|
    ensures forall k | 0 <= k < |r| :: !IsAsciiUpper(r[k])
    ensures forall k | 0 <= k < |s| && !IsAsciiUpper(s[k]) :: r[k] == s[k]
    ensures forall k | 0 <= k < |s| && IsAsciiUpper(s[k]) ::
              r[k] as int - s[k] as int == 'a' as int - 'A' as int
  {
    seq(|s|, k requires 0 <= k < |s| => LowerChar(s[k]))
  }

  /** Lower-casing twice is lower-casing once, so a stored lower-case address is a fixed point. */
  lemma ToLowerIdempotent(s: string)
    ensures ToLower(ToLower(s)) == ToLower(s)
  {
  }
}

=== FILE: listing.dfy ===
/** The two collection queries: every appointment, newest first (`find().sort({createdAt: -1})`),
    and the appointments whose status equals a given string (`find({status})`). */
module Listing {
  import opened Schema

  /** Ordered by creation time, most recent first. Documents created at the same instant may
      come in either order, as the database promises nothing about ties. */
  predicate NewestFirst(docs: seq<Document>) {
    forall i, j | 0 <= i < j < |docs| :: docs[i].appt.createdAt >= docs[j].appt.createdAt
  }

  /** No document is listed twice. */
  predicate DistinctIds(docs: seq<Document>) {
    forall i, j | 0 <= i < j < |docs| :: docs[i].id != docs[j].id
  }

  /** Every listed document is the stored one under its identifier. */
  predicate DrawnFrom(docs: seq<Document>, store: Store) {
    forall x | x in docs :: x.id in store && store[x.id] == x.appt
  }

  /** Puts `d` into a newest-first list, in front of the first document that is not newer. */
  function InsertNewest(docs: seq<Document>, d: Document): (r: seq<Document>)
    requires NewestFirst(docs)
    ensures NewestFirst(r)
    ensures |r| == |docs| + 1
    ensures multiset(r) == multiset(docs) + multiset{d}
    ensures forall x :: x in r <==> x in docs || x == d
    ensures DistinctIds(docs) && (forall x | x in docs :: x.id != d.id) ==> DistinctIds(r)
  {
    if |docs| == 0 || docs[0].appt.createdAt <= d.appt.createdAt then
      [d] + docs
    else
      var tail := InsertNewest(docs[1..], d);
      InsertBehindHead(docs, d, tail);
      [docs[0]] + tail
  }

  /** The recursive step of `InsertNewest`: the head is strictly newer than `d`, so it stays
      in front of the insertion into the rest. */
  lemma InsertBehindHead(docs: seq<Document>, d: Document, tail: seq<Document>)
    requires NewestFirst(docs) && |docs| > 0 && docs[0].appt.createdAt > d.appt.createdAt
    requires NewestFirst(tail)
    requires multiset(tail) == multiset(docs[1..]) + multiset{d}
    requires forall x :: x in tail <==> x in docs[1..] || x == d
    requires DistinctIds(docs[1..]) && (forall x | x in docs[1..] :: x.id != d.id) ==> DistinctIds(tail)
    ensures NewestFirst([docs[0]] + tail)
    ensures multiset([docs[0]] + tail) == multiset(docs) + multiset{d}
    ensures forall x :: x in [docs[0]] + tail <==> x in docs || x == d
    ensures DistinctIds(docs) && (forall x | x in docs :: x.id != d.id) ==> DistinctIds([docs[0]] + tail)
  {
    forall k | 0 <= k < |tail|
      ensures docs[0].appt.createdAt >= tail[k].appt.createdAt
      ensures tail[k] == d || exists m | 1 <= m < |docs| :: docs[m] == tail[k]
    {
      assert tail[k] in tail;
      if tail[k] != d {
        var m :| 0 <= m < |docs[1..]| && docs[1..][m] == tail[k];
        assert docs[m + 1] == tail[k];
      }
    }
    ConsNewestFirst(docs[0], tail);
    ConsKeepsCount(docs, d, tail);
    if DistinctIds(docs) && (forall x | x in docs :: x.id != d.id) {
      assert DistinctIds(docs[1..]);
      forall x | x in docs[1..] ensures x.id != d.id {
        var m :| 0 <= m < |docs[1..]| && docs[1..][m] == x;
        assert docs[m + 1] == x;
      }
      forall k | 0 <= k < |tail| ensures tail[k].id != docs[0].id {
        if tail[k] == d {
          assert docs[0] in docs;
        }
      }
      ConsDistinct(docs[0], tail);
    }
  }

  /** Putting the head back in front of the insertion into the rest adds `d` and nothing else. */
  lemma ConsKeepsCount(docs: seq<Document>, d: Document, tail: seq<Document>)
    requires |docs| > 0 && multiset(tail) == multiset(docs[1..]) + multiset{d}
    ensures multiset([docs[0]] + tail) == multiset(docs) + multiset{d}
  {
    assert docs == [docs[0]] + docs[1..];
  }

  lemma ConsNewestFirst(h: Document, tail: seq<Document>)
    requires NewestFirst(tail)
    requires forall k | 0 <= k < |tail| :: h.appt.createdAt >= tail[k].appt.createdAt
    ensures NewestFirst([h] + tail)
  {
    var r := [h] + tail;
    forall i, j | 0 <= i < j < |r| ensures r[i].appt.createdAt >= r[j].appt.createdAt {
      if i == 0 { assert r[j] == tail[j - 1]; } else { assert r[i] == tail[i - 1] && r[j] == tail[j - 1]; }
    }
  }

  lemma ConsDistinct(h: Document, tail: seq<Document>)
    requires DistinctIds(tail)
    requires forall k | 0 <= k < |tail| :: tail[k].id != h.id
    ensures DistinctIds([h] + tail)
  {
    var r := [h] + tail;
    forall i, j | 0 <= i < j < |r| ensures r[i].id != r[j].id {
      if i == 0 { assert r[j] == tail[j - 1]; } else { assert r[i] == tail[i - 1] && r[j] == tail[j - 1]; }
    }
  }

  /** `docs` lists, newest first and once each, exactly the stored appointments whose
      identifiers are in `keys`. */
  predicate Lists(docs: seq<Document>, store: Store, keys: set<Id>) {
    && NewestFirst(docs)
    && DrawnFrom(docs, store)
    && DistinctIds(docs)
    && (forall x | x in docs :: x.id in keys)
    && (forall id | id in keys :: id in store && Document(id, store[id]) in docs)
    && |docs| == |keys|
  }

  /** Inserting one more stored appointment extends the listing by its identifier. */
  lemma InsertExtendsListing(docs: seq<Document>, store: Store, done: set<Id>, id: Id)
    requires Lists(docs, store, done) && id in store && id !in done
    ensures Lists(InsertNewest(docs, Document(id, store[id])), store, done + {id})
  {
    var d := Document(id, store[id]);
    var r := InsertNewest(docs, d);
    assert forall x | x in docs :: x.id != d.id;
    assert |done + {id}| == |done| + 1;
    assert forall x | x in r :: x.id in done + {id};
  }

  /** `GET /api/appointments`: every stored appointment exactly once, newest first. */
  method ListAll(store: Store) returns (docs: seq<Document>)
    ensures NewestFirst(docs)
    ensures DrawnFrom(docs, store)
    ensures DistinctIds(docs)
    ensures forall id | id in store :: Document(id, store[id]) in docs
    ensures |docs| == |store|
  {
    docs := ListFrom(store, store.Keys);
    ListsEverything(docs, store, store.Keys);
  }

  /** The stored appointments under `keys`, newest first, built one insertion at a time. */
  method ListFrom(store: Store, keys: set<Id>) returns (docs: seq<Document>)
    requires keys <= store.Keys
    ensures Lists(docs, store, keys)
    decreases keys
  {
    if keys == {} {
      return [];
    }
    var id :| id in keys;
    var rest := ListFrom(store, keys - {id});
    assert keys == (keys - {id}) + {id};
    InsertExtendsListing(rest, store, keys - {id}, id);
    docs := InsertNewest(rest, Document(id, store[id]));
  }

  /** A listing of every identifier in the collection is a complete listing. */
  lemma ListsEverything(docs: seq<Document>, store: Store, keys: set<Id>)
    requires Lists(docs, store, keys) && keys == store.Keys
    ensures NewestFirst(docs) && DrawnFrom(docs, store) && DistinctIds(docs)
    ensures forall id | id in store :: Document(id, store[id]) in docs
    ensures |docs| == |store|
  {
  }

  /** `GET /api/appointments/status/:status`: the appointments whose status is spelled `status`.
      The parameter is not checked against the enum, so an unknown value lists nothing. */
  method ListByStatus(store: Store, status: string) returns (docs: seq<Document>)
    ensures DrawnFrom(docs, store)
    ensures DistinctIds(docs)
    ensures forall x | x in docs :: StatusName(x.appt.status) == status
    ensures forall id | id in store && StatusName(store[id].status) == status ::
              Document(id, store[id]) in docs
  {
    docs := [];
    var rest := store.Keys;
    while rest != {}
      invariant rest <= store.Keys
      invariant DrawnFrom(docs, store)
      invariant DistinctIds(docs)
      invariant forall x | x in docs :: x.id !in rest
      invariant forall x | x in docs :: StatusName(x.appt.status) == status
      invariant forall id | id in store.Keys - rest && StatusName(store[id].status) == status ::
                  Document(id, store[id]) in docs
      decreases rest
    {
      var id :| id in rest;
      if StatusName(store[id].status) == status {
        docs := docs + [Document(id, store[id])];
      }
      rest := rest - {id};
    }
  }
}

=== FILE: patterns.dfy ===
/** The two regular expressions the booking form uses, restated character by character.
    Email: `^[^\s@]+@[^\s@]+\.[^\s@]+$`. Phone: `^[\d\s\-\+\(\)]{10,}$`. */
module Patterns {
  import opened JsText

  /** One character of the class `[^\s@]`. */
  predicate PlainChar(c: char) {
    !IsSpace(c) && c != '@'
  }

  /** The pattern `[^\s@]+`. */
  predicate PlainRun(t: string) {
    |t| > 0 && forall k | 0 <= k < |t| :: PlainChar(t[k])
  }

  /** What the email regex matches, read as a concatenation: a run of plain characters, an
      '@', a run, a literal '.', and a final run. A plain run may itself hold dots, so any
      dot of the domain may serve as the literal one. */
  ghost predicate MatchesEmailRegex(s: string) {
    exists a, d | 0 <= a < d < |s| ::
      && s[a] == '@'
      && s[d] == '.'
      && PlainRun(s[..a])
      && PlainRun(s[a + 1..d])
      && PlainRun(s[d + 1..])
  }

  /** The address test the form applies, stated as a checklist: no whitespace anywhere,
      exactly one '@', a non-empty part before it, and a '.' in the part after it that is
      neither that part's first nor its last character. */
  predicate EmailShape(s: string) {
    && (forall k | 0 <= k < |s| :: !IsSpace(s[k]))
    && exists a | 0 < a < |s| ::
         && s[a] == '@'
         && (forall k | 0 <= k < |s| && k != a :: s[k] != '@')
         && exists d | a + 1 < d < |s| - 1 :: s[d] == '.'
  }

  /** The checklist accepts exactly the strings the regex matches. */
  lemma EmailRegexIff(s: string)
    ensures MatchesEmailRegex(s) <==> EmailShape(s)
  {
    if MatchesEmailRegex(s) {
      var a, d :| 0 <= a < d < |s| && s[a] == '@' && s[d] == '.'
        && PlainRun(s[..a]) && PlainRun(s[a + 1..d]) && PlainRun(s[d + 1..]);
      RegexSplitIsShape(s, a, d);
    }
    if EmailShape(s) {
      var a :| 0 < a < |s| && s[a] == '@'
        && (forall k | 0 <= k < |s| && k != a :: s[k] != '@')
        && exists d | a + 1 < d < |s| - 1 :: s[d] == '.';
      var d :| a + 1 < d < |s| - 1 && s[d] == '.';
      ShapeIsRegexSplit(s, a, d);
    }
  }

  lemma RegexSplitIsShape(s: string, a: int, d: int)
    requires 0 <= a < d < |s| && s[a] == '@' && s[d] == '.'
    requires PlainRun(s[..a]) && PlainRun(s[a + 1..d]) && PlainRun(s[d + 1..])
    ensures EmailShape(s)
  {
    forall k | 0 <= k < |s| && k != a ensures PlainChar(s[k]) {
      if k < a {
        assert s[..a][k] == s[k];
      } else if a < k < d {
        assert s[a + 1..d][k - a - 1] == s[k];
      } else if d < k {
        assert s[d + 1..][k - d - 1] == s[k];
      }
    }
    assert a > 0 && d > a + 1 && d < |s| - 1;
  }

  lemma ShapeIsRegexSplit(s: string, a: int, d: int)
    requires forall k | 0 <= k < |s| :: !IsSpace(s[k])
    requires 0 < a < |s| && s[a] == '@' && forall k | 0 <= k < |s| && k != a :: s[k] != '@'
    requires a + 1 < d < |s| - 1 && s[d] == '.'
    ensures MatchesEmailRegex(s)
  {
    assert PlainRun(s[..a]) by {
      forall k | 0 <= k < a ensures PlainChar(s[..a][k]) { assert s[..a][k] == s[k]; }
    }
    var domain, tld := s[a + 1..d], s[d + 1..];
    assert PlainRun(domain) by {
      forall k | 0 <= k < |domain| ensures PlainChar(domain[k]) { assert domain[k] == s[a + 1 + k]; }
    }
    assert PlainRun(tld) by {
      forall k | 0 <= k < |tld| ensures PlainChar(tld[k]) { assert tld[k] == s[d + 1 + k]; }
    }
  }

  /** Plain runs joined by an '@' and a '.' make an address of the right shape. */
  lemma JoinedAddress(local: string, domain: string, tld: string)
    requires PlainRun(local) && PlainRun(domain) && PlainRun(tld)
    ensures EmailShape(local + "@" + domain + "." + tld)
  {
    var s := local + "@" + domain + "." + tld;
    var a, d := |local|, |local| + 1 + |domain|;
    assert s[a] == '@' && s[d] == '.';
    assert s[..a] == local;
    assert s[a + 1..d] == domain;
    assert s[d + 1..] == tld;
    EmailRegexIff(s);
  }

  /** `\d` in an ECMAScript regular expression: the ASCII digits only. */
  predicate IsDigit(c: char) {
    '0' <= c <= '9'
  }

  /** One character of the class `[\d\s\-\+\(\)]`. */
  predicate PhoneChar(c: char) {
    IsDigit(c) || IsSpace(c) || c == '-' || c == '+' || c == '(' || c == ')'
  }

  /** The phone regex: ten or more characters, every one of them from the class. */
  predicate PhoneShape(s: string) {
    |s| >= 10 && forall k | 0 <= k < |s| :: PhoneChar(s[k])
  }

  /** The phone rule counts characters of the class, not digits: ten hyphens pass, while a
      nine-digit number does not. */
  lemma PhoneCountsCharactersNotDigits()
    ensures PhoneShape("----------")
    ensures !PhoneShape("987654321")
    ensures PhoneShape("98765 43210")
  {
  }
}

=== FILE: schema.dfy ===
/** The appointment document: its enumerations, its fields, and what the document mapper does
    when a booking is turned into a document (string setters, casts and validators). */
module Schema {
  import opened Wrappers
  import opened JsText

  /** The six practitioner identifiers the `doctor` enum admits. */
  datatype Doctor = RakeshGupta | AshishRanjan | ShaliniKrishna | EmilyWatson | DavidKumar | LisaAnderson

  function DoctorId(d: Doctor): string {
    match d
    case RakeshGupta => "rakesh-gupta"
    case AshishRanjan => "ashish-ranjan"
    case ShaliniKrishna => "shalini-krishna"
    case EmilyWatson => "emily-watson"
    case DavidKumar => "david-kumar"
    case LisaAnderson => "lisa-anderson"
  }

  /** The `doctor` enum validator: the identifier names a doctor, or the document is rejected. */
  function ParseDoctor(s: string): (r: Option<Doctor>)
    ensures r.Some? ==> DoctorId(r.value) == s
    ensures r.None? ==> forall d: Doctor :: DoctorId(d) != s
  {
    if s == "rakesh-gupta" then Some(RakeshGupta)
    else if s == "ashish-ranjan" then Some(AshishRanjan)
    else if s == "shalini-krishna" then Some(ShaliniKrishna)
    else if s == "emily-watson" then Some(EmilyWatson)
    else if s == "david-kumar" then Some(DavidKumar)
    else if s == "lisa-anderson" then Some(LisaAnderson)
    else None
  }

  /** The three lifecycle states. */
  datatype Status = Pending | Confirmed | Cancelled

  function StatusName(s: Status): string {
    match s
    case Pending => "pending"
    case Confirmed => "confirmed"
    case Cancelled => "cancelled"
  }

  /** Membership in `['pending', 'confirmed', 'cancelled']`. */
  function ParseStatus(s: string): (r: Option<Status>)
    ensures r.Some? ==> StatusName(r.value) == s
    ensures r.None? ==> forall st: Status :: StatusName(st) != s
  {
    if s == "pending" then Some(Pending)
    else if s == "confirmed" then Some(Confirmed)
    else if s == "cancelled" then Some(Cancelled)
    else None
  }

  /** Every identifier and every status name parses back to what produced it. */
  lemma EnumRoundTrips(d: Doctor, st: Status)
    ensures ParseDoctor(DoctorId(d)) == Some(d)
    ensures ParseStatus(StatusName(st)) == Some(st)
  {
  }

  /** Document identifiers: abstract values, unique within the collection. */
  type Id = nat

  /** A stored appointment. `date` and `createdAt` are instants on one abstract time line. */
  datatype Appointment = Appointment(
    name: string,
    email: string,
    phone: string,
    doctor: Doctor,
    date: int,
    time: string,
    reason: string,
    status: Status,
    createdAt: int)

  /** An appointment together with its identifier, as the API returns it. */
  datatype Document = Document(id: Id, appt: Appointment)

  /** The collection. */
  type Store = map<Id, Appointment>

  /** The foreign pieces the server relies on: the two tests of the `validator` package and
      the `Date` constructor applied to the request's date string (None for an Invalid Date). */
  datatype Validators = Validators(
    isEmail: string -> bool,
    isMobilePhone: string -> bool,
    parseDate: string -> Option<int>)

  /** What the schema guarantees of every saved document. */
  predicate Conforms(a: Appointment, v: Validators) {
    && a.name != [] && Trimmed(a.name)
    && a.email != [] && ToLower(a.email) == a.email && v.isEmail(a.email)
    && a.phone != [] && v.isMobilePhone(a.phone)
    && a.time != []
    && a.reason != [] && Trimmed(a.reason)
  }

  predicate StoreConforms(store: Store, v: Validators) {
    forall id | id in store :: Conforms(store[id], v)
  }

  /** The seven string fields of a booking as they reach the document constructor. */
  datatype Fields = Fields(
    name: string,
    email: string,
    phone: string,
    doctor: string,
    date: string,
    time: string,
    reason: string)

  /** Building and validating the document: the `trim` setters on name and reason, the
      `lowercase` setter on email, the cast of the date, the `required` validators (an empty
      string fails them), the `doctor` enum and the two custom validators, which see the
      values after the setters ran. The status takes its default and the creation time is
      `now`. None is the validation error `save` rejects with. */
  function Cast(f: Fields, v: Validators, now: int): (r: Option<Appointment>)
    ensures r.Some? ==> Conforms(r.value, v)
    ensures r.Some? ==>
              && IsTrimOf(r.value.name, f.name)
              && IsTrimOf(r.value.reason, f.reason)
              && r.value.email == ToLower(f.email)
              && r.value.phone == f.phone
              && DoctorId(r.value.doctor) == f.doctor
              && Some(r.value.date) == v.parseDate(f.date)
              && r.value.time == f.time
              && r.value.status == Pending
              && r.value.createdAt == now
    ensures r.None? <==>
              || Trim(f.name) == [] || f.email == [] || !v.isEmail(ToLower(f.email))
              || f.phone == [] || !v.isMobilePhone(f.phone)
              || ParseDoctor(f.doctor).None? || v.parseDate(f.date).None?
              || f.time == [] || Trim(f.reason) == []
  {
    var name, email, reason := Trim(f.name), ToLower(f.email), Trim(f.reason);
    var doctor, date := ParseDoctor(f.doctor), v.parseDate(f.date);
    if name == [] || email == [] || !v.isEmail(email) || f.phone == [] || !v.isMobilePhone(f.phone)
       || doctor.None? || date.None? || f.time == [] || reason == []
    then None
    else
      ToLowerIdempotent(f.email);
      Some(Appointment(name, email, f.phone, doctor.value, date.value, f.time, reason, Pending, now))
  }
}

=== FILE: wrappers.dfy ===
/** Optional values used throughout the model. */
module Wrappers {

  /** A value that may be absent: a JSON field that was not sent, a lookup that found nothing,
      a date string that does not parse. */
  datatype Option<+T> = None | Some(value: T)
}
